=== FILE: README.md ===
# Search-space model of skopt/parameter.py

This project models, in Dafny, the search-space core of scikit-optimize's
`skopt/parameter.py` and proves properties of that model:

- the transformers between a dimension's original space and the warped space
  handed to the optimizer: Identity, Log and Log10 (as tags), the one-hot
  `CategoricalEncoder`, and sklearn's label encoder used by the `'labels'`
  transformer;
- the three dimension kinds `Real`, `Integer` and `Categorical`: how their
  constructors validate `transformer` and `prior`, and how `rvs` draws and
  clamps a value;
- `check_grid`, which sniffs loosely-typed input, tells a flat list of
  dimensions from a list of alternative sub-grids, and classifies each raw
  spec as a `Categorical`, `Integer` or `Real`;
- `sample_points`, which draws tuples from a grid: one draw chooses a sub-grid,
  then one draw per dimension fills the tuple.

Python's dynamic values become `Values.Value` (`IntV | RealV | StrV | OtherV`).
A raw spec is `Grid.Raw(seq<Value>)` and a built dimension is `Grid.Dist(...)`.
A grid entry is either one `Dimension(spec)` or a `SubGrid(specs)`.
Randomness is an explicit stream `Randomness.Stream = nat -> Unit` of uniform
draws in [0, 1). Every scalar random call consumes exactly one draw:
`randint(0, m)`, a uniform or frozen prior, and the categorical draw.
A caller-supplied frozen variate is a function from one draw to a value.
Exceptions become `Results.Result` errors.
All values are immutable, so `check_grid` always works on its own copy and
the caller's grid cannot change.

Modules: `Results`, `Values`, `Randomness`, `Weights` (the categorical prior
and its inverse-CDF draw), `Transformers`, `Distributions`, `Grid`, `Sampler`,
and `AsWritten` (the source as written where it departs from its intent; see
Findings).

## Model

| member | source | states |
|---|---|---|
| Transformers.IdentityIsTransparent | skopt/parameter.py:18-27 | Identity's fit returns the transformer itself, and transform and inverse_transform both return their input unchanged |
| Transformers.Fit | skopt/parameter.py:81-93 | the fitted encoder has learned exactly the labels present in the values, each once |
| Transformers.EncodeOneHot | skopt/parameter.py:95-106 | succeeds iff every label was seen during fit (else UnseenLabel); one row per input value, one column per learned label, entry 1 exactly where the column's label equals the value |
| Transformers.OneHotRowHasSingleOne | skopt/parameter.py:95-106 | each one-hot row has a 1 in the column of its label and in no other column |
| Transformers.OneHotIsInjective | skopt/parameter.py:95-106 | two inputs with equal one-hot rows are the same label, so the warped value determines the label |
| Transformers.EncodeLabels | skopt/parameter.py:225-227 | the label encoder maps each seen label to the index of its class, and fails on an unseen label |
| Transformers.DecodeLabels | skopt/parameter.py:59-61 | the label encoder's inverse maps each valid code to its class, and fails on any code that is not a class index |
| Transformers.LabelsRoundTrip | skopt/parameter.py:55-61 | decoding the codes of seen labels gives back the labels |
| Transformers.CodesRoundTrip | skopt/parameter.py:55-61 | encoding the labels of valid codes gives back the codes |
| Transformers.FitTransformer | skopt/parameter.py:81-93 | fit returns the stateless transformers unchanged; the label encoders learn exactly the labels of the values |
| Transformers.Transform | skopt/parameter.py:55-57 | the identity returns its input; one-hot and label encoders fail exactly on unseen labels, and otherwise the one-hot result is exactly the encoder's indicator rows and the label result its class indices |
| Transformers.InverseTransform | skopt/parameter.py:59-61 | the identity returns its input; the one-hot encoder has no inverse; the label encoder fails exactly on invalid codes |
| Transformers.TransformRoundTrip | skopt/parameter.py:55-61 | for Identity and the label encoder, inverse_transform undoes transform |
| Distributions.RealTransformer | skopt/parameter.py:132-141 | 'identity', 'log' and 'log10' select Identity, Log and Log10; a transformer object is kept as given; anything else is InvalidTransformer |
| Distributions.IntegerTransformer | skopt/parameter.py:180-185 | accepted iff a transformer object or 'identity'; anything else is InvalidTransformer |
| Distributions.CategoricalTransformer | skopt/parameter.py:222-231 | 'onehot' selects the one-hot encoder and 'labels' the label encoder, each fitted on exactly the categories; a transformer object is kept as given; anything else is InvalidTransformer |
| Distributions.PriorFor | skopt/parameter.py:143-150 | 'uniform' selects the uniform prior and a frozen variate becomes the prior itself; anything else is InvalidPrior |
| Distributions.MakeReal | skopt/parameter.py:109-150 | an invalid transformer is reported before an invalid prior; with both valid the result is a well-formed Real with the given bounds, carrying the prior and transformer the arguments select |
| Distributions.MakeInteger | skopt/parameter.py:157-194 | an invalid transformer is reported before an invalid prior; with both valid the result is a well-formed Integer with the given bounds, carrying the prior and transformer the arguments select |
| Distributions.MakeCategorical | skopt/parameter.py:201-235 | succeeds iff the transformer is accepted, there is at least one category and any explicit prior is a probability vector over them; an invalid transformer is InvalidTransformer, no categories is NoCategories, and an explicit prior that is not a probability vector is InvalidWeights; the result carries the transformer the argument selects; the default gives each category weight 1/n |
| Distributions.CategoricalWith | skopt/parameter.py:233-235 | without a prior the weights are n copies of 1/n; an explicit prior is kept only if it is a probability vector of length n |
| Weights.UniformWeights | skopt/parameter.py:233-234 | n weights, each 1/n, forming a probability vector that sums to 1 |
| Weights.Pick | skopt/parameter.py:235-238 | the drawn category index lies in [0, n) |
| Weights.PickIsInverseCdf | skopt/parameter.py:235-238 | scipy's rule, the first index whose cumulative weight reaches the draw: index i owns the slot (P(i), P(i+1)], the draw 0 goes to index 0, and every earlier cumulative weight stays below the draw, so index i owns a slot of width w[i] |
| Weights.ZeroWeightNeverPicked | skopt/parameter.py:235-238 | a category of weight zero is never drawn by a positive draw; the draw 0 always gives the first category |
| Randomness.ScaledIndex | skopt/parameter.py:280 | the sub-grid index drawn by randint(0, m) is in [0, m) |
| Randomness.ScaledIndexSlot | skopt/parameter.py:280 | index k owns exactly the draws in [k/m, (k+1)/m), a slot of width 1/m |
| Distributions.Clamp | skopt/parameter.py:154 | np.clip: a value inside [low, high] is unchanged, one below low becomes low, one above high becomes high, and high wins when the bounds cross |
| Distributions.ClampInt | skopt/parameter.py:198 | np.clip on integers: a value inside [low, high] is unchanged, one below low becomes low, one above high becomes high, and high wins when the bounds cross |
| Distributions.Stretch | skopt/parameter.py:144 | the uniform Real draw lies in the half-open [low, high) when low < high, and is low when low == high |
| Distributions.StretchRecoversDraw | skopt/parameter.py:144 | when low < high the uniform Real draw is low + u * (high - low): subtracting low and dividing by the width gives back the unit draw |
| Distributions.RealDraw | skopt/parameter.py:143-146 | the uniform prior stretches the draw over [low, high); a frozen variate yields its own value for the draw |
| Distributions.Sample | skopt/parameter.py:152-239 | fails iff scipy rejects a uniform prior's arguments: a uniform Real fails iff high < low (low == high is allowed and gives low), a uniform Integer fails iff high <= low; Real and Integer results lie in the closed [low, high]; a uniform Real is the draw stretched over the range; a frozen draw inside the bounds is returned unchanged and one outside is clipped; a uniform Integer is low plus randint's index over high - low; a Categorical returns categories[i] for the index i whose cumulative slot (P(i), P(i+1)] holds the draw, the draw 0 giving the first category |
| Distributions.Rvs | skopt/parameter.py:152-153 | n draws, the i-th from stream position pos + i, each inside the dimension's domain; fails as a whole exactly when Sample fails (a uniform Real with high < low, a uniform Integer with high <= low), even when no sample is asked for |
| Distributions.ConstructorsWellFormed | skopt/parameter.py:233-235 | every dimension the constructors build carries a valid probability vector when categorical |
| Distributions.CategoricalSamplesEncode | skopt/parameter.py:222-239 | every value a default Categorical samples is accepted by its one-hot transformer |
| Grid.DetectFlat | skopt/parameter.py:245-248 | the grid is flat iff its first entry is a built dimension or a spec starting with a number or string; an empty grid or empty first entry is an error |
| Grid.Classify | skopt/parameter.py:257-269 | built dimensions pass through; more than two elements or a string first gives a Categorical over all elements with the one-hot encoder fitted on them and weight 1/n each; an integral first gives Integer(low, high), a float first gives Real(low, high), both uniform with the identity; a single number is MissingBound, as Integer(*dist) or Real(*dist) lack high; an upper bound that is not an integer (for Integer) or not a number (for Real) is BadBound; an unclassifiable spec is an error |
| Grid.NormalizeSubGrid | skopt/parameter.py:253-269 | succeeds iff every spec classifies; the output has one dimension per spec, each the spec's classification |
| Grid.NormalizeFlat | skopt/parameter.py:253-269 | a flat grid becomes one sub-grid with one dimension per entry, each the entry's classification |
| Grid.NormalizeNested | skopt/parameter.py:253-257 | a nested grid keeps one sub-grid per entry, each normalized spec by spec |
| Grid.CheckGrid | skopt/parameter.py:242-271 | at least one sub-grid; a flat input gives one sub-grid as long as the input, a nested input one sub-grid per entry of the same length, each entry classified in order; well-formed inputs give well-formed dimensions |
| Grid.FlatMatchesSubGrid | skopt/parameter.py:245-257 | normalizing a flat list equals normalizing the same specs as one sub-grid, errors included |
| Grid.FlatIsOneSubGrid | skopt/parameter.py:245-248 | a flat grid is the same search space as a grid holding it as its only sub-grid |
| Grid.NormalizeIdempotent | skopt/parameter.py:257-259 | normalizing an already normalized grid returns it unchanged |
| Grid.FlatExample | skopt/parameter.py:242-271 | [(1, 2), (3.0, 5.0)] becomes one sub-grid [Integer(1, 2), Real(3.0, 5.0)] |
| Grid.NestedExample | skopt/parameter.py:242-271 | [[(1, 2)], [(3.0, 5.0)]] becomes two sub-grids of one dimension each |
| Grid.CategoricalExample | skopt/parameter.py:242-271 | [("a", "b", "c")] becomes one Categorical over a, b, c with weight 1/3 each |
| Sampler.SampleDims | skopt/parameter.py:282-287 | one value per dimension in dimension order, dimension j from the j-th draw after the choice, each inside its dimension's domain |
| Sampler.SamplePoint | skopt/parameter.py:279-288 | the chosen sub-grid index is randint's index for the first draw; value j of the tuple is the sample of dimension j from the (j + 1)-th draw after it; exactly 1 + its dimension count draws are consumed |
| Sampler.Points | skopt/parameter.py:279-288 | exactly n tuples, each from a sub-grid index in range and fitting that sub-grid, and the stream never moves back |
| Sampler.Run | skopt/parameter.py:279-288 | a run of n steps yields n points |
| Sampler.RunKeeps | skopt/parameter.py:279-288 | what every step promises (a property of its point, a forward-moving stream, the error kind) holds for every point of the run |
| Sampler.RunAt | skopt/parameter.py:279-288 | point i of a run is the step taken where the run of i points ended, and the run of i + 1 points ends where that step left the stream |
| Sampler.RunPrefix | skopt/parameter.py:279-288 | a run of n points is the prefix of the run of n + 1 points |
| Sampler.PointAt | skopt/parameter.py:279-288 | point i is SamplePoint at the position where the first i points left the stream, so the points start at pos and each starts where the previous one ended |
| Sampler.SamplePoints | skopt/parameter.py:274-288 | a grid error is reported as is; otherwise it succeeds iff every point samples, and the tuples are exactly the parameters of the points drawn from position 0 of the stream |
| Sampler.SampleDimsAgree | skopt/parameter.py:282-287 | a tuple depends only on the draws at the positions it reads |
| Sampler.SamplePointAgree | skopt/parameter.py:279-288 | a point depends only on the draws it consumes |
| Sampler.PointsReproducible | skopt/parameter.py:277-288 | two streams that agree on the consumed draws give the same points and end position |
| Sampler.FewerPointsArePrefix | skopt/parameter.py:279-288 | the first n of n + 1 points are exactly the n points asked for alone |
| Sampler.SamplePointsPrefix | skopt/parameter.py:274-288 | sample_points with n points returns the first n tuples of the run with n + 1 |
| AsWritten.CategoricalTransformerAsWritten | skopt/parameter.py:222-231 | as written, the default 'one-hot' is rejected and 'onehot' hits the undefined CategoryTransform |
| AsWritten.MakeCategoricalAsWritten | skopt/parameter.py:201-235 | as written, a Categorical with the default transformer, or with 'onehot', cannot be built |
| AsWritten.DefaultCategoricalRejected | skopt/parameter.py:202-224 | the as-written constructor fails where the corrected one succeeds, for every non-empty category list |
| AsWritten.SampleAsWritten | skopt/parameter.py:152-154 | as written, every Real and Integer draw whose arguments scipy accepts fails on the undefined name low |
| AsWritten.ClampAgainstUndefinedBounds | skopt/parameter.py:152-154 | the as-written draw fails where the corrected draw succeeds and lies in [low, high] |
| AsWritten.ClassifyAsWritten | skopt/parameter.py:257-271 | as written, a spec of at most two elements starting with a non-number, non-string stays raw in the grid |
| AsWritten.UnclassifiableSpecSurvives | skopt/parameter.py:266-271 | (None, x) survives the as-written normaliser as raw data, while the corrected one reports Unclassifiable |
| AsWritten.PriorForAsWritten | skopt/parameter.py:143-150 | as written, an invalid prior raises an attribute error on _rvs instead of the invalid-prior error |
| AsWritten.PriorErrorMisreported | skopt/parameter.py:147-150 | for every prior name other than 'uniform' the as-written and corrected errors differ |

## Left out

- Log and Log10 arithmetic: they are kept as transformer tags. Their warped values are `Unmodelled` and no numeric round trip is claimed, because the floating-point logarithm and exponential are outside the model.
- Scipy frozen variates and sklearn encoders are foreign code. A frozen prior is a function from one uniform draw to a value, and exactly one draw is consumed per sample. One-hot is the index of the label.
- Transformers.Fit: learns labels in first-occurrence order. sklearn's LabelEncoder sorts them (np.unique), so the model's one-hot columns are a permutation of sklearn's.
- Transformers.EncodeLabels: because of that order, the `'labels'` codes differ from sklearn's. For `Categorical("b", "a", transformer="labels")` sklearn codes "b" as 1 and the model codes it as 0; Transformers.DecodeLabels inverts the model's codes, not sklearn's. These integers are the warped values handed to the optimizer. A total order on mixed-type values, which np.unique would need, is not modelled.
- The scipy-version branch and `check_random_state` are not modelled: one explicit stream is threaded through every call, starting at position 0.
- Frequency claims (uniform categories, fair sub-grid choice) cannot be proved about a deterministic stream. Instead, the model proves how wide each outcome's slot of the unit interval is (Randomness.ScaledIndexSlot, Weights.PickIsInverseCdf).
- Generator laziness: the points are a finite sequence. If the grid is invalid or a draw fails, the whole call is an error. The tuples Python yields before such an error are not modelled. Sampler.SamplePointsPrefix states the prefix behaviour instead.
- Strings are atoms. A bare string where Python expects a spec or sub-grid would be iterated character by character; that is not modelled.
- Grid.CheckGrid: a grid that mixes single dimensions and sub-grids is a MixedGrid error. Python raises for most of these: usually a TypeError, and for a flat grid holding a list of more than two specs the Categorical constructor fails (the default transformer is rejected, and with that fixed the label encoder rejects the two-dimensional array of equal-length tuples). It does not raise in two cases: a flat grid holding a list of one or two specs, such as `[(1, 2), [(3, 4)]]` (the list is left in the grid unchanged, since its first element is neither a number nor a string); and a nested grid holding an empty tuple after its first entry (it becomes an empty sub-grid).
- Grid.Classify: a two-element spec with an integral first element and a float second element is a BadBound error. Python would build `Integer(1, 2.5)`. Integer bounds are integers in this model.
- Categories are scalars (`Value`); categories that are tuples or built dimensions are not modelled. numpy's `asarray` gives the categories one common type: numbers mixed with strings become strings, ints mixed with floats become floats (so `(1, 1.0)` is a single label and `Categorical(1, 2.5)` samples `1.0`), and anything else, such as a list holding None, stays an array of objects. The model keeps each category's own type and compares categories by that type.
- Weights.ValidWeights: an explicit categorical prior must sum to exactly 1. scipy accepts any sum within floating-point tolerance.
- Python floats are modelled as exact reals; double rounding is not modelled. The two contracts below rely on this.
- Distributions.Stretch: the strict upper bound `x < high` of the uniform Real draw (and of Distributions.Sample and Distributions.RealDraw) holds for reals. In doubles, scipy's `u * (high - low) + low` can round up to `high`, for example with low = 1.0, high = 1.0 + 2^-52 and u = 1 - 2^-53, and np.clip then keeps it.
- Weights.UniformWeights: n copies of 1/n sum to exactly 1 over the reals. In doubles, `np.tile(1./10, 10)` sums to 0.9999999999999999.
- An unfitted encoder cannot be written: `Encoder` values exist only after fitting. So the use-before-fit error has no counterpart.
- User-defined transformer objects are opaque: they are named, and their transform is `Unmodelled`.
- The abstract `Distribution` base class is the closed union `Distributions.Distribution`. `rvs()` with `n_samples=None` is `Distributions.Sample`, and `rvs(n)` is `Distributions.Rvs`.

## Findings

| source | as written | input that shows it | evidently intended | confidence | as-written member | corrected member |
|---|---|---|---|---|---|---|
| skopt/parameter.py:202-223 | the default transformer is `'one-hot'` but the check compares against `'onehot'`; the `'onehot'` branch instantiates the undefined `CategoryTransform` | `Categorical("a", "b", "c")`, and so `check_grid([("a", "b", "c")])` | the default builds a one-hot encoder fitted on the categories | high; not executed | AsWritten.MakeCategoricalAsWritten | Distributions.MakeCategorical |
| skopt/parameter.py:152-154 | `rvs` of Real (and Integer, 196-198) clamps against the undefined names `low` and `high` | `Real(0.0, 1.0).rvs()` | clamp into the dimension's own `[low, high]` | high; not executed | AsWritten.SampleAsWritten | Distributions.Sample |
| skopt/parameter.py:266-271 | a spec of at most two elements whose first element is neither a number nor a string is left in the normalized grid unchanged | `check_grid([[(None, 1)]])` | report an invalid-argument error | high; not executed | AsWritten.ClassifyAsWritten | Grid.Classify |
| skopt/parameter.py:147-150 | the invalid-prior message formats `self._rvs` before it is assigned | `Real(0.0, 1.0, prior="normal")` | raise the invalid-prior ValueError | high; not executed | AsWritten.PriorForAsWritten | Distributions.PriorFor |

=== FILE: as_written.dfy ===
/** The code of skopt/parameter.py as it is written, where it departs from
    its evident intent. Each member here isolates one departure; the rest of
    the model uses the corrected definitions, and the lemmas below show the
    input on which the two disagree. */
module AsWritten {
  import opened Results
  import opened Values
  import opened Randomness
  import opened Transformers
  import opened Distributions
  import opened Grid

  /** The default `transformer` argument of Categorical as written. */
  const WrittenCategoricalDefault := TransformerName("one-hot")

  /** Categorical's transformer choice as written: it compares against
      'onehot' (not the default 'one-hot') and then instantiates the
      undefined name CategoryTransform. */
  function CategoricalTransformerAsWritten(arg: TransformerArg, categories: seq<Value>): (r: Result<Transformer>)
    ensures arg == OneHotTransformer ==> r == Err(UndefinedName("CategoryTransform"))
    ensures arg == WrittenCategoricalDefault ==> r == Err(InvalidTransformer)
    ensures r.Ok? ==> !(r.value.OneHot? && arg.TransformerName?)
  {
    match arg
    case TransformerName(name) =>
      if name == "onehot" then Err(UndefinedName("CategoryTransform"))
      else if name == "labels" then Ok(Labels(Fit(categories)))
      else Err(InvalidTransformer)
    case TransformerObject(t) => Ok(t)
    case NotATransformer => Err(InvalidTransformer)
  }

  function MakeCategoricalAsWritten(categories: seq<Value>, prior: Option<seq<real>>, transformer: TransformerArg)
    : (r: Result<Distribution>)
    ensures transformer == WrittenCategoricalDefault ==> r == Err(InvalidTransformer)
    ensures transformer == OneHotTransformer ==> r == Err(UndefinedName("CategoryTransform"))
  {
    var t :- CategoricalTransformerAsWritten(transformer, categories);
    CategoricalWith(categories, prior, t)
  }

  /** A Categorical with the default transformer can never be built as
      written, while the corrected constructor builds it for any non-empty
      list of categories. So check_grid as written fails on every spec it
      reads as categorical (more than two elements, or a string first),
      which the corrected check_grid accepts. */
  lemma DefaultCategoricalRejected(categories: seq<Value>)
    requires |categories| > 0
    ensures MakeCategoricalAsWritten(categories, None, WrittenCategoricalDefault).Err?
    ensures MakeCategoricalAsWritten(categories, None, OneHotTransformer).Err?
    ensures MakeCategorical(categories, None, OneHotTransformer).Ok?
    ensures |categories| > 2 || categories[0].StrV? ==> Classify(Raw(categories)).Ok?
  {
  }

  /** `rvs` of Real and Integer as written: the prior draws, then
      the clamp reads the undefined global name `low`. */
  function SampleAsWritten(d: Distribution, u: Unit): (r: Result<Value>)
    requires WellFormed(d)
    ensures (d.Real? || d.Integer?) && SamplingDefined(d) ==> r == Err(UndefinedName("low"))
    ensures d.Categorical? ==> r == Sample(d, u)
  {
    if d.Categorical? then Sample(d, u)
    else if !SamplingDefined(d) then Err(DomainError)
    else Err(UndefinedName("low"))
  }

  /** Every Real or Integer draw fails as written; clamped to the
      dimension's own bounds it succeeds and lands in [low, high]. */
  lemma ClampAgainstUndefinedBounds(low: real, high: real, u: Unit)
    requires low < high
    ensures SampleAsWritten(Real(low, high, Uniform, Identity), u) == Err(UndefinedName("low"))
    ensures Sample(Real(low, high, Uniform, Identity), u).Ok?
    ensures low <= Sample(Real(low, high, Uniform, Identity), u).value.r <= high
  {
  }

  /** One spec as check_grid writes it into its copy: a two-element spec
      whose first element is neither a number nor a string is left in place
      as raw data. */
  function ClassifyAsWritten(spec: Spec): (r: Result<Spec>)
    ensures spec.Raw? && 0 < |spec.values| <= 2 && spec.values[0].OtherV? ==> r == Ok(spec)
    ensures !(spec.Raw? && 0 < |spec.values| <= 2 && spec.values[0].OtherV?) ==>
              (r.Ok? <==> Classify(spec).Ok?) && (r.Ok? ==> r.value == Dist(Classify(spec).value))
  {
    if spec.Raw? && 0 < |spec.values| <= 2 && spec.values[0].OtherV? then Ok(spec)
    else
      var d :- Classify(spec);
      Ok(Dist(d))
  }

  /** `(None, 1)` survives normalization as raw data, so sampling later asks
      a tuple for `rvs`; the corrected normaliser rejects it at once. */
  lemma UnclassifiableSpecSurvives(second: Value)
    ensures ClassifyAsWritten(Raw([OtherV, second])) == Ok(Raw([OtherV, second]))
    ensures !ClassifyAsWritten(Raw([OtherV, second])).value.Dist?
    ensures Classify(Raw([OtherV, second])) == Err(Unclassifiable)
  {
  }

  /** The prior check of Real and Integer as written: its error message
      formats `self._rvs`, which is not yet assigned, so an attribute error
      replaces the intended ValueError. */
  function PriorForAsWritten(arg: PriorArg): (r: Result<Prior>)
    ensures r.Ok? <==> PriorAccepted(arg)
    ensures r.Err? ==> r.error == UndefinedName("_rvs")
  {
    match arg
    case PriorName(name) => if name == "uniform" then Ok(Uniform) else Err(UndefinedName("_rvs"))
    case FrozenVariate(v) => Ok(Frozen(v))
    case NotAPrior => Err(UndefinedName("_rvs"))
  }

  /** A misspelt prior raises the wrong error as written. */
  lemma PriorErrorMisreported(name: string)
    requires name != "uniform"
    ensures PriorForAsWritten(PriorName(name)) == Err(UndefinedName("_rvs"))
    ensures PriorFor(PriorName(name)) == Err(InvalidPrior)
  {
  }
}

=== FILE: distributions.dfy ===
/** Search-space dimensions: Real, Integer and Categorical, their argument
    validation and their per-dimension sampling. */
module Distributions {
  import opened Results
  import opened Values
  import opened Randomness
  import opened Weights
  import opened Transformers

  /** A caller-supplied frozen random variate, abstracted as the value it
      yields for one uniform draw. */
  datatype Variate =
    | ContinuousVariate(realAt: Unit -> real)
    | DiscreteVariate(intAt: Unit -> int)

  /** The sampling rule a Real or Integer dimension settles on. */
  datatype Prior = Uniform | Frozen(variate: Variate)

  /** What a caller may pass as `prior`: a string, a frozen variate, or any
      other object. */
  datatype PriorArg = PriorName(name: string) | FrozenVariate(variate: Variate) | NotAPrior

  /** What a caller may pass as `transformer`: a string, a TransformerMixin
      object, or any other object. */
  datatype TransformerArg =
    | TransformerName(name: string)
    | TransformerObject(transformer: Transformer)
    | NotATransformer

  datatype Distribution =
    | Real(low: real, high: real, prior: Prior, transformer: Transformer)
    | Integer(ilow: int, ihigh: int, prior: Prior, transformer: Transformer)
    | Categorical(categories: seq<Value>, weights: seq<real>, transformer: Transformer)

  /** Default arguments of the constructors. */
  const UniformPrior := PriorName("uniform")
  const IdentityTransformer := TransformerName("identity")
  const OneHotTransformer := TransformerName("onehot")

  predicate RealTransformerAccepted(arg: TransformerArg) {
    arg.TransformerObject? || (arg.TransformerName? && arg.name in {"identity", "log", "log10"})
  }

  predicate IntegerTransformerAccepted(arg: TransformerArg) {
    arg.TransformerObject? || arg == IdentityTransformer
  }

  predicate CategoricalTransformerAccepted(arg: TransformerArg) {
    arg.TransformerObject? || (arg.TransformerName? && arg.name in {"onehot", "labels"})
  }

  predicate PriorAccepted(arg: PriorArg) {
    arg.FrozenVariate? || (arg.PriorName? && arg.name == "uniform")
  }

  /** The transformer named or given to a Real dimension. */
  function RealTransformer(arg: TransformerArg): (r: Result<Transformer>)
    ensures r.Ok? <==> RealTransformerAccepted(arg)
    ensures r.Err? ==> r.error == InvalidTransformer
    ensures arg.TransformerObject? ==> r == Ok(arg.transformer)
    ensures arg == TransformerName("identity") ==> r == Ok(Identity)
    ensures arg == TransformerName("log") ==> r == Ok(Log)
    ensures arg == TransformerName("log10") ==> r == Ok(Log10)
    ensures r.Ok? && arg.TransformerName? ==> Stateless(r.value)
  {
    match arg
    case TransformerName(name) =>
      if name == "identity" then Ok(Identity)
      else if name == "log" then Ok(Log)
      else if name == "log10" then Ok(Log10)
      else Err(InvalidTransformer)
    case TransformerObject(t) => Ok(t)
    case NotATransformer => Err(InvalidTransformer)
  }

  /** The transformer named or given to an Integer dimension: only the
      identity is accepted by name. */
  function IntegerTransformer(arg: TransformerArg): (r: Result<Transformer>)
    ensures r.Ok? <==> IntegerTransformerAccepted(arg)
    ensures r.Err? ==> r.error == InvalidTransformer
    ensures arg.TransformerObject? ==> r == Ok(arg.transformer)
    ensures r.Ok? && arg.TransformerName? ==> r.value.Identity?
  {
    match arg
    case TransformerName(name) =>
      if name == "identity" then Ok(Identity) else Err(InvalidTransformer)
    case TransformerObject(t) => Ok(t)
    case NotATransformer => Err(InvalidTransformer)
  }

  /** The transformer of a Categorical dimension, fitted eagerly against its
      categories when chosen by name. */
  function CategoricalTransformer(arg: TransformerArg, categories: seq<Value>): (r: Result<Transformer>)
    ensures r.Ok? <==> CategoricalTransformerAccepted(arg)
    ensures r.Err? ==> r.error == InvalidTransformer
    ensures arg.TransformerObject? ==> r == Ok(arg.transformer)
    ensures arg == TransformerName("onehot") ==> r == Ok(OneHot(Fit(categories)))
    ensures arg == TransformerName("labels") ==> r == Ok(Labels(Fit(categories)))
    ensures r.Ok? && arg.TransformerName? ==>
              (r.value.OneHot? || r.value.Labels?) &&
              forall v :: v in r.value.encoder.classes <==> v in categories
  {
    match arg
    case TransformerName(name) =>
      if name == "onehot" then Ok(OneHot(Fit(categories)))
      else if name == "labels" then Ok(Labels(Fit(categories)))
      else Err(InvalidTransformer)
    case TransformerObject(t) => Ok(t)
    case NotATransformer => Err(InvalidTransformer)
  }

  /** The sampling rule of a Real or Integer dimension. */
  function PriorFor(arg: PriorArg): (r: Result<Prior>)
    ensures r.Ok? <==> PriorAccepted(arg)
    ensures r.Err? ==> r.error == InvalidPrior
    ensures r.Ok? && arg.PriorName? ==> r.value.Uniform?
    ensures arg.FrozenVariate? ==> r == Ok(Frozen(arg.variate))
  {
    match arg
    case PriorName(name) => if name == "uniform" then Ok(Uniform) else Err(InvalidPrior)
    case FrozenVariate(v) => Ok(Frozen(v))
    case NotAPrior => Err(InvalidPrior)
  }

  /** Invariant the constructors establish and the samplers rely on. */
  predicate WellFormed(d: Distribution) {
    d.Categorical? ==> |d.categories| > 0 && ValidWeights(d.weights, |d.categories|)
  }

  /** `Real(low, high, prior, transformer)`: the transformer is checked
      before the prior. */
  function MakeReal(low: real, high: real, prior: PriorArg, transformer: TransformerArg): (r: Result<Distribution>)
    ensures !RealTransformerAccepted(transformer) ==> r == Err(InvalidTransformer)
    ensures RealTransformerAccepted(transformer) && !PriorAccepted(prior) ==> r == Err(InvalidPrior)
    ensures RealTransformerAccepted(transformer) && PriorAccepted(prior) ==>
              r.Ok? && r.value.Real? && r.value.low == low && r.value.high == high && WellFormed(r.value)
    ensures r.Ok? ==>
              r.value.prior == PriorFor(prior).value && r.value.transformer == RealTransformer(transformer).value
  {
    var t :- RealTransformer(transformer);
    var p :- PriorFor(prior);
    Ok(Real(low, high, p, t))
  }

  /** `Integer(low, high, prior, transformer)`: the transformer is checked
      before the prior. */
  function MakeInteger(low: int, high: int, prior: PriorArg, transformer: TransformerArg): (r: Result<Distribution>)
    ensures !IntegerTransformerAccepted(transformer) ==> r == Err(InvalidTransformer)
    ensures IntegerTransformerAccepted(transformer) && !PriorAccepted(prior) ==> r == Err(InvalidPrior)
    ensures IntegerTransformerAccepted(transformer) && PriorAccepted(prior) ==>
              r.Ok? && r.value.Integer? && r.value.ilow == low && r.value.ihigh == high && WellFormed(r.value)
    ensures r.Ok? ==>
              r.value.prior == PriorFor(prior).value && r.value.transformer == IntegerTransformer(transformer).value
  {
    var t :- IntegerTransformer(transformer);
    var p :- PriorFor(prior);
    Ok(Integer(low, high, p, t))
  }

  /** `Categorical(*categories, prior, transformer)`: without a prior every
      category weighs 1/n; an explicit prior must be a probability vector
      over the categories. */
  function MakeCategorical(categories: seq<Value>, prior: Option<seq<real>>, transformer: TransformerArg)
    : (r: Result<Distribution>)
    ensures !CategoricalTransformerAccepted(transformer) ==> r == Err(InvalidTransformer)
    ensures CategoricalTransformerAccepted(transformer) && |categories| == 0 ==> r == Err(NoCategories)
    ensures (CategoricalTransformerAccepted(transformer) && |categories| > 0 && prior.Some? &&
             !ValidWeights(prior.value, |categories|)) ==> r == Err(InvalidWeights)
    ensures r.Ok? <==>
              && CategoricalTransformerAccepted(transformer)
              && |categories| > 0
              && (prior.Some? ==> ValidWeights(prior.value, |categories|))
    ensures r.Ok? ==> r.value.Categorical? && r.value.categories == categories && WellFormed(r.value)
    ensures r.Ok? && prior.None? ==>
              |r.value.weights| == |categories| &&
              forall i :: 0 <= i < |categories| ==> r.value.weights[i] == 1.0 / |categories| as real
    ensures r.Ok? && prior.Some? ==> r.value.weights == prior.value
    ensures r.Ok? ==> r.value.transformer == CategoricalTransformer(transformer, categories).value
    ensures r.Ok? && transformer == OneHotTransformer ==>
              r.value.transformer.OneHot? &&
              forall v :: v in r.value.transformer.encoder.classes <==> v in categories
  {
    var t :- CategoricalTransformer(transformer, categories);
    CategoricalWith(categories, prior, t)
  }

  /** The weights step of the Categorical constructor, once its transformer
      is settled: a discrete prior over the category indices. */
  function CategoricalWith(categories: seq<Value>, prior: Option<seq<real>>, t: Transformer): (r: Result<Distribution>)
    ensures r.Ok? <==> |categories| > 0 && (prior.Some? ==> ValidWeights(prior.value, |categories|))
    ensures |categories| == 0 ==> r == Err(NoCategories)
    ensures r.Err? && |categories| > 0 ==> r.error == InvalidWeights
    ensures r.Ok? ==> r.value.Categorical? && r.value == Categorical(categories, r.value.weights, t) && WellFormed(r.value)
    ensures r.Ok? && prior.None? ==>
              |r.value.weights| == |categories| &&
              forall i :: 0 <= i < |categories| ==> r.value.weights[i] == 1.0 / |categories| as real
    ensures r.Ok? && prior.Some? ==> r.value.weights == prior.value
  {
    if |categories| == 0 then Err(NoCategories)
    else match prior
      case None => Ok(Categorical(categories, UniformWeights(|categories|), t))
      case Some(w) =>
        if ValidWeights(w, |categories|) then Ok(Categorical(categories, w, t)) else Err(InvalidWeights)
  }

  /** numpy clipping: raise to `lo`, then lower to `hi`; when the bounds
      cross, `hi` wins. */
  function Clamp(x: real, lo: real, hi: real): (r: real)
    ensures lo <= hi ==> lo <= r <= hi
    ensures lo <= x <= hi ==> r == x
    ensures x < lo && lo <= hi ==> r == lo
    ensures hi < x || hi < lo ==> r == hi
  {
    var raised := if x < lo then lo else x;
    if raised > hi then hi else raised
  }

  /** numpy clipping of an integer: the upper bound is applied last, so
      it wins when the bounds cross. */
  function ClampInt(x: int, lo: int, hi: int): (r: int)
    ensures lo <= hi ==> lo <= r <= hi
    ensures lo <= x <= hi ==> r == x
    ensures x < lo && lo <= hi ==> r == lo
    ensures hi < x || hi < lo ==> r == hi
  {
    if hi < x || hi < lo then hi
    else if x < lo then lo
    else x
  }

  /** The bounds of a Real or Integer dimension describe a non-empty
      closed interval. */
  predicate Bounded(d: Distribution) {
    match d
    case Real(low, high, _, _) => low <= high
    case Integer(low, high, _, _) => low <= high
    case Categorical(_, _, _) => true
  }

  /** scipy's argument checks for a uniform prior: `uniform(low, high - low)`
      needs a non-negative scale, so low == high is allowed and gives low,
      while `randint(low, high)` needs low < high. */
  predicate SamplingDefined(d: Distribution) {
    match d
    case Real(low, high, prior, _) => prior.Uniform? ==> low <= high
    case Integer(low, high, prior, _) => prior.Uniform? ==> low < high
    case Categorical(_, _, _) => true
  }

  /** Whether a sampled value lies in the declared domain of `d`. */
  predicate InSupport(d: Distribution, v: Value) {
    match d
    case Real(low, high, _, _) => v.RealV? && low <= v.r <= high
    case Integer(low, high, prior, _) =>
      if prior.Frozen? && prior.variate.ContinuousVariate? then
        v.RealV? && low as real <= v.r <= high as real
      else
        v.IntV? && low <= v.i <= high
    case Categorical(categories, _, _) => v in categories
  }

  /** `uniform(low, high - low)` stretches a unit draw over the range. */
  function Stretch(u: Unit, low: real, high: real): (x: real)
    ensures low < high ==> low <= x < high
    ensures low == high ==> x == low
  {
    var span := high - low;
    var offset := Scale(u, span);
    low + offset
  }

  /** The draw scaled to a span: a positive span keeps it inside
      [0, span), and an empty span gives 0. */
  function Scale(u: Unit, span: real): (offset: real)
    ensures span > 0.0 ==> 0.0 <= offset < span
    ensures span == 0.0 ==> offset == 0.0
  {
    assert span > 0.0 ==> 0.0 <= u * span < span by {
      if span > 0.0 { ScaledDrawInRange(u, span); }
    }
    u * span
  }

  /** The uniform Real draw is the unit draw placed proportionally along
      the range: it divides back to the draw. Kept apart from Stretch so
      that the division enters a proof only where it is asked for. */
  lemma StretchRecoversDraw(u: Unit, low: real, high: real)
    requires low < high
    ensures (Stretch(u, low, high) - low) / (high - low) == u
  {
    assert Stretch(u, low, high) - low == u * (high - low);
  }

  /** The raw draw of a Real dimension, before clamping. */
  function RealDraw(low: real, high: real, prior: Prior, u: Unit): (x: real)
    ensures prior.Uniform? ==> x == Stretch(u, low, high)
    ensures prior.Frozen? && prior.variate.ContinuousVariate? ==> x == prior.variate.realAt(u)
    ensures prior.Frozen? && prior.variate.DiscreteVariate? ==> x == prior.variate.intAt(u) as real
  {
    match prior
    case Uniform => Stretch(u, low, high)
    case Frozen(ContinuousVariate(f)) => f(u)
    case Frozen(DiscreteVariate(g)) => g(u) as real
  }

  /** One scalar `rvs()` draw from draw `u`, clamped into the dimension's own
      bounds. (The source clamps against undefined names `low` and `high`;
      the module AsWritten models that.) */
  function Sample(d: Distribution, u: Unit): (r: Result<Value>)
    requires WellFormed(d)
    ensures r.Ok? <==> SamplingDefined(d)
    ensures r.Err? ==> r.error == DomainError
    ensures r.Ok? && Bounded(d) ==> InSupport(d, r.value)
    ensures r.Ok? && d.Integer? && d.prior.Uniform? ==> r.value.IntV? && d.ilow <= r.value.i < d.ihigh
    ensures r.Ok? && d.Real? && d.prior.Uniform? && d.low < d.high ==> r.value.RealV? && r.value.r < d.high
    ensures r.Ok? && d.Real? && d.prior.Uniform? ==> r.value == RealV(Stretch(u, d.low, d.high))
    ensures r.Ok? && d.Real? && d.prior.Frozen? ==>
              r.value == RealV(Clamp(RealDraw(d.low, d.high, d.prior, u), d.low, d.high))
    ensures d.Real? && d.prior.Frozen? && d.low <= RealDraw(d.low, d.high, d.prior, u) <= d.high ==>
              r == Ok(RealV(RealDraw(d.low, d.high, d.prior, u)))
    ensures r.Ok? && d.Integer? && d.prior.Uniform? ==> r.value == IntV(d.ilow + ScaledIndex(u, d.ihigh - d.ilow))
    ensures d.Integer? && d.prior.Frozen? && d.prior.variate.DiscreteVariate? ==>
              r == Ok(IntV(ClampInt(d.prior.variate.intAt(u), d.ilow, d.ihigh)))
    ensures d.Integer? && d.prior.Frozen? && d.prior.variate.ContinuousVariate? ==>
              r == Ok(RealV(Clamp(d.prior.variate.realAt(u), d.ilow as real, d.ihigh as real)))
    ensures d.Categorical? ==>
              exists i :: 0 <= i < |d.categories| && r.value == d.categories[i] &&
                          (i == 0 || PrefixSum(d.weights, i) < u) && u <= PrefixSum(d.weights, i + 1)
  {
    match d
    case Real(low, high, prior, _) =>
      if prior.Uniform? && high < low then Err(DomainError)
      else Ok(RealV(Clamp(RealDraw(low, high, prior, u), low, high)))
    case Integer(low, high, prior, _) =>
      (match prior
       case Uniform =>
         if high <= low then Err(DomainError)
         else Ok(IntV(ClampInt(low + ScaledIndex(u, high - low), low, high)))
       case Frozen(DiscreteVariate(g)) => Ok(IntV(ClampInt(g(u), low, high)))
       case Frozen(ContinuousVariate(f)) => Ok(RealV(Clamp(f(u), low as real, high as real))))
    case Categorical(categories, weights, _) =>
      PickIsInverseCdf(weights, u);
      Ok(categories[Pick(weights, u)])
  }

  /** n draws, the i-th from stream position pos + i. */
  function Draws(d: Distribution, n: nat, s: Stream, pos: nat): (r: seq<Value>)
    requires WellFormed(d) && SamplingDefined(d)
    ensures |r| == n
    ensures forall i :: 0 <= i < n ==> Sample(d, s(pos + i)) == Ok(r[i])
    decreases n
  {
    if n == 0 then [] else [Sample(d, s(pos)).value] + Draws(d, n - 1, s, pos + 1)
  }

  /** `rvs(n_samples)`: n independent draws; fails as a whole when scipy
      rejects the uniform prior's arguments, even for zero samples, since
      scipy checks its arguments before the size. */
  function Rvs(d: Distribution, n: nat, s: Stream, pos: nat): (r: Result<seq<Value>>)
    requires WellFormed(d)
    ensures r.Ok? <==> SamplingDefined(d)
    ensures r.Err? ==> r.error == DomainError
    ensures r.Ok? ==> |r.value| == n
    ensures r.Ok? && Bounded(d) ==> forall i :: 0 <= i < n ==> InSupport(d, r.value[i])
    ensures r.Ok? ==> forall i :: 0 <= i < n ==> Sample(d, s(pos + i)) == Ok(r.value[i])
  {
    if !SamplingDefined(d) then Err(DomainError)
    else Ok(Draws(d, n, s, pos))
  }

  /** Every dimension the constructors build satisfies the invariant. */
  lemma ConstructorsWellFormed(low: real, high: real, ilow: int, ihigh: int, prior: PriorArg,
                               transformer: TransformerArg, categories: seq<Value>, weights: Option<seq<real>>)
    ensures MakeReal(low, high, prior, transformer).Ok? ==> WellFormed(MakeReal(low, high, prior, transformer).value)
    ensures MakeInteger(ilow, ihigh, prior, transformer).Ok? ==>
              WellFormed(MakeInteger(ilow, ihigh, prior, transformer).value)
    ensures MakeCategorical(categories, weights, transformer).Ok? ==>
              WellFormed(MakeCategorical(categories, weights, transformer).value)
  {
  }

  /** A Categorical built with the default one-hot transformer can encode
      every value it samples. */
  lemma CategoricalSamplesEncode(categories: seq<Value>, u: Unit)
    requires MakeCategorical(categories, None, OneHotTransformer).Ok?
    ensures Sample(MakeCategorical(categories, None, OneHotTransformer).value, u).Ok?
    ensures Transform(MakeCategorical(categories, None, OneHotTransformer).value.transformer,
                      [Sample(MakeCategorical(categories, None, OneHotTransformer).value, u).value]).Ok?
  {
    var d := MakeCategorical(categories, None, OneHotTransformer).value;
    var v := Sample(d, u).value;
    assert v in d.transformer.encoder.classes;
  }
}

=== FILE: grid.dfy ===
/** `check_grid`: turn loosely-typed user input into sub-grids of typed
    dimensions. Inputs are immutable values, so the normaliser always works
    on its own copy and never changes what the caller holds. */
module Grid {
  import opened Results
  import opened Values
  import opened Distributions
  import opened Transformers

  /** One dimension as the user wrote it: a raw tuple of scalars, or an
      already-built dimension. */
  datatype Spec = Raw(values: seq<Value>) | Dist(dist: Distribution)

  /** An element of the user's grid: either one dimension (when the grid is
      flat) or a whole sub-grid (when the grid lists alternatives). */
  datatype Entry = Dimension(spec: Spec) | SubGrid(specs: seq<Spec>)

  /** Every dimension the user built beforehand came from a constructor. */
  predicate SpecWellFormed(spec: Spec) {
    spec.Dist? ==> WellFormed(spec.dist)
  }

  predicate InputWellFormed(grid: seq<Entry>) {
    forall k :: 0 <= k < |grid| ==>
      match grid[k]
      case Dimension(spec) => SpecWellFormed(spec)
      case SubGrid(specs) => forall j :: 0 <= j < |specs| ==> SpecWellFormed(specs[j])
  }

  predicate GridWellFormed(g: seq<seq<Distribution>>) {
    forall k, j :: 0 <= k < |g| && 0 <= j < |g[k]| ==> WellFormed(g[k][j])
  }

  /** The first entry looks like a single dimension: a built dimension, or a
      tuple whose first element is a number or a string. */
  predicate LooksFlat(first: Entry) {
    first.Dimension? &&
    (first.spec.Dist? || (|first.spec.values| > 0 && IsScalarKey(first.spec.values[0])))
  }

  /** The flat-or-nested heuristic. Indexing the first entry, or the first
      element of that entry, fails when it is empty. */
  function DetectFlat(grid: seq<Entry>): (r: Result<bool>)
    ensures |grid| == 0 ==> r == Err(EmptyGrid)
    ensures r.Ok? ==> |grid| > 0 && (r.value <==> LooksFlat(grid[0]))
    ensures |grid| > 0 && LooksFlat(grid[0]) ==> r == Ok(true)
    ensures r.Err? && |grid| > 0 ==> r.error == EmptyEntry
  {
    if |grid| == 0 then Err(EmptyGrid)
    else match grid[0]
      case Dimension(Dist(_)) => Ok(true)
      case Dimension(Raw(vs)) => if |vs| == 0 then Err(EmptyEntry) else Ok(IsScalarKey(vs[0]))
      case SubGrid(specs) => if |specs| == 0 then Err(EmptyEntry) else Ok(false)
  }

  /** The dimension a single spec denotes. */
  function Classify(spec: Spec): (r: Result<Distribution>)
    ensures spec.Dist? ==> r == Ok(spec.dist)
    ensures spec.Raw? && (|spec.values| > 2 || (|spec.values| > 0 && spec.values[0].StrV?)) ==>
              && r.Ok? && r.value.Categorical? && r.value.categories == spec.values
              && r.value.transformer == OneHot(Fit(spec.values))
              && |r.value.weights| == |spec.values|
              && forall i :: 0 <= i < |spec.values| ==> r.value.weights[i] == 1.0 / |spec.values| as real
    ensures spec.Raw? && |spec.values| == 2 && spec.values[0].IntV? && spec.values[1].IntV? ==>
              r.Ok? && r.value == Integer(spec.values[0].i, spec.values[1].i, Uniform, Identity)
    ensures spec.Raw? && |spec.values| == 2 && spec.values[0].RealV? && IsNumber(spec.values[1]) ==>
              r.Ok? && r.value == Real(spec.values[0].r, AsReal(spec.values[1]), Uniform, Identity)
    ensures spec.Raw? && 0 < |spec.values| <= 2 && r.Ok? ==>
              (spec.values[0].IntV? ==> r.value.Integer?) && (spec.values[0].RealV? ==> r.value.Real?)
    ensures spec.Raw? && 0 < |spec.values| <= 2 && spec.values[0].OtherV? ==> r == Err(Unclassifiable)
    ensures spec.Raw? && |spec.values| == 1 && IsNumber(spec.values[0]) ==> r == Err(MissingBound)
    ensures spec.Raw? && |spec.values| == 2 && spec.values[0].IntV? && !spec.values[1].IntV? ==> r == Err(BadBound)
    ensures spec.Raw? && |spec.values| == 2 && spec.values[0].RealV? && !IsNumber(spec.values[1]) ==>
              r == Err(BadBound)
    ensures spec.Raw? && |spec.values| == 0 ==> r == Err(EmptyEntry)
    ensures SpecWellFormed(spec) && r.Ok? ==> WellFormed(r.value)
  {
    match spec
    case Dist(d) => Ok(d)
    case Raw(vs) =>
      if |vs| > 2 then MakeCategorical(vs, None, OneHotTransformer)
      else if |vs| == 0 then Err(EmptyEntry)
      else if vs[0].StrV? then MakeCategorical(vs, None, OneHotTransformer)
      // integral before real: in Python an int is also a numbers.Real
      else if vs[0].IntV? then
        if |vs| == 1 then Err(MissingBound)
        else if vs[1].IntV? then MakeInteger(vs[0].i, vs[1].i, UniformPrior, IdentityTransformer)
        else Err(BadBound)
      else if vs[0].RealV? then
        if |vs| == 1 then Err(MissingBound)
        else if IsNumber(vs[1]) then MakeReal(vs[0].r, AsReal(vs[1]), UniformPrior, IdentityTransformer)
        else Err(BadBound)
      // the source leaves such a spec in the grid unchanged
      else Err(Unclassifiable)
  }

  /** Classify every spec of one sub-grid, in order. */
  function NormalizeSubGrid(specs: seq<Spec>): (r: Result<seq<Distribution>>)
    ensures r.Ok? <==> forall j :: 0 <= j < |specs| ==> Classify(specs[j]).Ok?
    ensures r.Ok? ==> |r.value| == |specs|
    ensures r.Ok? ==> forall j :: 0 <= j < |specs| ==> Classify(specs[j]) == Ok(r.value[j])
  {
    if |specs| == 0 then Ok([])
    else
      var first :- Classify(specs[0]);
      var rest :- NormalizeSubGrid(specs[1..]);
      assert forall j :: 1 <= j < |specs| ==> specs[j] == specs[1..][j - 1];
      Ok([first] + rest)
  }

  /** A flat grid is one sub-grid; each entry must be a single dimension. */
  function NormalizeFlat(grid: seq<Entry>): (r: Result<seq<Distribution>>)
    ensures r.Ok? <==> forall j :: 0 <= j < |grid| ==> grid[j].Dimension? && Classify(grid[j].spec).Ok?
    ensures r.Ok? ==> |r.value| == |grid|
    ensures r.Ok? ==> forall j :: 0 <= j < |grid| ==> Classify(grid[j].spec) == Ok(r.value[j])
  {
    if |grid| == 0 then Ok([])
    else
      var first :- if grid[0].Dimension? then Classify(grid[0].spec) else Err(MixedGrid);
      var rest :- NormalizeFlat(grid[1..]);
      assert forall j :: 1 <= j < |grid| ==> grid[j] == grid[1..][j - 1];
      Ok([first] + rest)
  }

  /** A nested grid lists sub-grids; each entry must be one. */
  function NormalizeNested(grid: seq<Entry>): (r: Result<seq<seq<Distribution>>>)
    ensures r.Ok? <==> forall k :: 0 <= k < |grid| ==> grid[k].SubGrid? && NormalizeSubGrid(grid[k].specs).Ok?
    ensures r.Ok? ==> |r.value| == |grid|
    ensures r.Ok? ==> forall k :: 0 <= k < |grid| ==> NormalizeSubGrid(grid[k].specs) == Ok(r.value[k])
  {
    if |grid| == 0 then Ok([])
    else
      var first :- if grid[0].SubGrid? then NormalizeSubGrid(grid[0].specs) else Err(MixedGrid);
      var rest :- NormalizeNested(grid[1..]);
      assert forall k :: 1 <= k < |grid| ==> grid[k] == grid[1..][k - 1];
      Ok([first] + rest)
  }

  /** `check_grid`: a flat grid becomes a single sub-grid; a nested grid
      keeps one sub-grid per entry; each spec becomes its dimension. */
  function CheckGrid(grid: seq<Entry>): (r: Result<seq<seq<Distribution>>>)
    ensures r.Ok? ==> |grid| > 0 && |r.value| >= 1
    ensures r.Ok? && |grid| > 0 && LooksFlat(grid[0]) ==>
              |r.value| == 1 && |r.value[0]| == |grid| &&
              forall j :: 0 <= j < |grid| ==> grid[j].Dimension? && Classify(grid[j].spec) == Ok(r.value[0][j])
    ensures r.Ok? && |grid| > 0 && !LooksFlat(grid[0]) ==>
              |r.value| == |grid| &&
              forall k :: 0 <= k < |grid| ==>
                grid[k].SubGrid? && |r.value[k]| == |grid[k].specs| &&
                forall j :: 0 <= j < |grid[k].specs| ==> Classify(grid[k].specs[j]) == Ok(r.value[k][j])
    ensures (&& DetectFlat(grid) == Ok(true)
             && forall j :: 0 <= j < |grid| ==> grid[j].Dimension? && Classify(grid[j].spec).Ok?)
            ==> r.Ok?
    ensures (&& DetectFlat(grid) == Ok(false)
             && forall k :: 0 <= k < |grid| ==>
                  grid[k].SubGrid? && forall j :: 0 <= j < |grid[k].specs| ==> Classify(grid[k].specs[j]).Ok?)
            ==> r.Ok?
    ensures DetectFlat(grid).Err? ==> r.Err?
    ensures InputWellFormed(grid) && r.Ok? ==> GridWellFormed(r.value)
  {
    var flat :- DetectFlat(grid);
    if flat then
      var sub :- NormalizeFlat(grid);
      Ok([sub])
    else
      NormalizeNested(grid)
  }

  /** The specs of a grid whose entries are all single dimensions. */
  function Specs(grid: seq<Entry>): (specs: seq<Spec>)
    requires forall j :: 0 <= j < |grid| ==> grid[j].Dimension?
    ensures |specs| == |grid|
    ensures forall j :: 0 <= j < |grid| ==> specs[j] == grid[j].spec
  {
    seq(|grid|, j requires 0 <= j < |grid| && grid[j].Dimension? => grid[j].spec)
  }

  lemma {:induction false} FlatMatchesSubGrid(grid: seq<Entry>)
    requires forall j :: 0 <= j < |grid| ==> grid[j].Dimension?
    ensures NormalizeFlat(grid) == NormalizeSubGrid(Specs(grid))
  {
    if |grid| > 0 {
      FlatMatchesSubGrid(grid[1..]);
      assert Specs(grid[1..]) == Specs(grid)[1..];
    }
  }

  /** A flat list of dimensions is the same search space as a grid with
      that list as its only sub-grid. */
  lemma FlatIsOneSubGrid(grid: seq<Entry>)
    requires |grid| > 0 && LooksFlat(grid[0])
    requires forall j :: 0 <= j < |grid| ==> grid[j].Dimension?
    ensures CheckGrid(grid) == CheckGrid([SubGrid(Specs(grid))])
  {
    FlatMatchesSubGrid(grid);
    var nested := [SubGrid(Specs(grid))];
    assert DetectFlat(grid) == Ok(true);
    assert DetectFlat(nested) == Ok(false);
    assert NormalizeNested(nested[1..]) == Ok([]);
    match NormalizeSubGrid(Specs(grid)) {
      case Ok(sub) =>
        assert nested[1..] == [];
        assert [sub] + [] == [sub];
        assert NormalizeNested(nested) == Ok([sub]);
      case Err(e) =>
        assert NormalizeNested(nested) == Err(e);
    }
  }

  /** A normalized grid written back as nested input. */
  function Embed(g: seq<seq<Distribution>>): (grid: seq<Entry>)
    ensures |grid| == |g|
    ensures forall k :: 0 <= k < |g| ==>
              grid[k].SubGrid? && |grid[k].specs| == |g[k]| &&
              forall j :: 0 <= j < |g[k]| ==> grid[k].specs[j] == Dist(g[k][j])
  {
    seq(|g|, k requires 0 <= k < |g| => SubGrid(seq(|g[k]|, j requires 0 <= j < |g[k]| => Dist(g[k][j]))))
  }

  /** Normalizing an already normalized grid changes nothing: built
      dimensions pass through untouched. */
  lemma NormalizeIdempotent(g: seq<seq<Distribution>>)
    requires |g| > 0 && |g[0]| > 0
    ensures CheckGrid(Embed(g)) == Ok(g)
  {
    var grid := Embed(g);
    assert DetectFlat(grid) == Ok(false);
    var r := CheckGrid(grid);
    assert r.Ok?;
    forall k | 0 <= k < |g|
      ensures r.value[k] == g[k]
    {
      assert forall j :: 0 <= j < |g[k]| ==> Classify(grid[k].specs[j]) == Ok(g[k][j]);
    }
    assert r.value == g;
  }

  /** `[(1, 2), (3.0, 5.0)]` is one sub-grid of an Integer and a Real. */
  lemma FlatExample()
    ensures CheckGrid([Dimension(Raw([IntV(1), IntV(2)])), Dimension(Raw([RealV(3.0), RealV(5.0)]))])
         == Ok([[Integer(1, 2, Uniform, Identity), Real(3.0, 5.0, Uniform, Identity)]])
  {
    var grid := [Dimension(Raw([IntV(1), IntV(2)])), Dimension(Raw([RealV(3.0), RealV(5.0)]))];
    var r := CheckGrid(grid);
    assert LooksFlat(grid[0]);
    assert r.value[0] == [Integer(1, 2, Uniform, Identity), Real(3.0, 5.0, Uniform, Identity)];
  }

  /** `[[(1, 2)], [(3.0, 5.0)]]` is two sub-grids of one dimension each. */
  lemma NestedExample()
    ensures CheckGrid([SubGrid([Raw([IntV(1), IntV(2)])]), SubGrid([Raw([RealV(3.0), RealV(5.0)])])])
         == Ok([[Integer(1, 2, Uniform, Identity)], [Real(3.0, 5.0, Uniform, Identity)]])
  {
    var grid := [SubGrid([Raw([IntV(1), IntV(2)])]), SubGrid([Raw([RealV(3.0), RealV(5.0)])])];
    var a := Integer(1, 2, Uniform, Identity);
    var b := Real(3.0, 5.0, Uniform, Identity);
    assert DetectFlat(grid) == Ok(false);
    assert Classify(grid[0].specs[0]) == Ok(a);
    assert Classify(grid[1].specs[0]) == Ok(b);
    var r := CheckGrid(grid);
    assert r.Ok?;
    assert r.value[0] == [a];
    assert r.value[1] == [b];
    assert r.value == [[a], [b]];
  }

  /** `[("a", "b", "c")]` is one sub-grid holding one Categorical whose
      three labels weigh 1/3 each. */
  lemma CategoricalExample()
    ensures var r := CheckGrid([Dimension(Raw([StrV("a"), StrV("b"), StrV("c")]))]);
            && r.Ok? && |r.value| == 1 && |r.value[0]| == 1
            && r.value[0][0].Categorical?
            && r.value[0][0].categories == [StrV("a"), StrV("b"), StrV("c")]
            && r.value[0][0].weights == [1.0 / 3.0, 1.0 / 3.0, 1.0 / 3.0]
  {
    var grid := [Dimension(Raw([StrV("a"), StrV("b"), StrV("c")]))];
    assert LooksFlat(grid[0]);
    var r := CheckGrid(grid);
    assert Classify(grid[0].spec).Ok?;
  }
}

=== FILE: randomness.dfy ===
/** The random stream threaded through every sampling call. One call to a
    random generator consumes one uniform draw in [0, 1). */
module Randomness {

  /** A uniform draw from the half-open unit interval. */
  type Unit = r: real | 0.0 <= r < 1.0 witness 0.0

  /** An explicitly seeded random source: the draw at each position. */
  type Stream = nat -> Unit

  /** Scaling a unit draw by a positive length stays inside [0, length). */
  lemma ScaledDrawInRange(u: Unit, length: real)
    requires length > 0.0
    ensures 0.0 <= u * length < length
  {
    assert u * length < 1.0 * length;
  }

  /** `randint(0, m)`: the integer index a unit draw selects among `m`
      equally wide slots. */
  function ScaledIndex(u: Unit, m: nat): (k: nat)
    requires m > 0
    ensures k < m
  {
    ScaledDrawInRange(u, m as real);
    (u * m as real).Floor
  }

  /** Index k owns exactly the draws with k / m <= u < (k + 1) / m, so each
      index gets a slot of width 1/m. Kept apart from ScaledIndex so that
      the product u * m enters a proof only where it is asked for. */
  lemma ScaledIndexSlot(u: Unit, m: nat)
    requires m > 0
    ensures ScaledIndex(u, m) as real <= u * m as real < ScaledIndex(u, m) as real + 1.0
  {
  }
}

=== FILE: results.dfy ===
/** Failure-compatible results for the errors the search-space code raises. */
module Results {

  datatype Option<+T> = None | Some(value: T)

  /** The exceptions of skopt/parameter.py, one constructor per cause. */
  datatype Error =
    | InvalidTransformer       // RuntimeError: not a valid transformer
    | InvalidPrior             // ValueError: prior should be 'uniform' or a frozen variate
    | NoCategories             // a Categorical with no categories (division by zero)
    | InvalidWeights           // prior vector of the wrong length, negative, or not summing to 1
    | DomainError              // scipy refuses to draw from an empty uniform range
    | UnseenLabel              // label (or code) not learned during fit
    | NoInverse                // CategoricalEncoder has no inverse_transform
    | EmptyGrid                // indexing the first entry of an empty grid
    | EmptyEntry               // indexing the first element of an empty entry
    | MissingBound             // a one-element numeric spec: the constructor lacks `high`
    | BadBound                 // an upper bound of the wrong type
    | Unclassifiable           // a spec that is neither numeric nor categorical
    | MixedGrid                // flat and nested entries in one grid
    | UndefinedName(name: string)  // NameError / AttributeError of the code as written

  datatype Result<+T> = Ok(value: T) | Err(error: Error) {

    predicate IsFailure() {
      Err?
    }

    function PropagateFailure<U>(): Result<U>
      requires Err?
    {
      Err(error)
    }

    function Extract(): T
      requires Ok?
    {
      value
    }
  }
}

=== FILE: sampler.dfy ===
/** `sample_points`: draw parameter tuples from a grid with one explicit
    random stream. For each point one draw picks a sub-grid, then one draw
    per dimension samples that sub-grid in dimension order. */
module Sampler {
  import opened Results
  import opened Values
  import opened Randomness
  import opened Distributions
  import opened Grid

  /** A sampled point together with the sub-grid it came from. */
  datatype Draw = Draw(subGrid: nat, params: seq<Value>)

  /** A tuple has one entry per dimension of its sub-grid, in order, each
      inside that dimension's declared domain. */
  predicate Fits(sub: seq<Distribution>, params: seq<Value>) {
    && |params| == |sub|
    && forall j :: 0 <= j < |sub| && Bounded(sub[j]) ==> InSupport(sub[j], params[j])
  }

  predicate AllSamplingDefined(sub: seq<Distribution>) {
    forall j :: 0 <= j < |sub| ==> SamplingDefined(sub[j])
  }

  /** One value per dimension, dimension j from stream position pos + j. */
  function SampleDims(sub: seq<Distribution>, s: Stream, pos: nat): (params: seq<Value>)
    requires forall j :: 0 <= j < |sub| ==> WellFormed(sub[j])
    requires AllSamplingDefined(sub)
    ensures Fits(sub, params)
    ensures forall j :: 0 <= j < |sub| ==> Sample(sub[j], s(pos + j)) == Ok(params[j])
  {
    seq(|sub|, j requires 0 <= j < |sub| => Sample(sub[j], s(pos + j)).value)
  }

  /** One point: pick a sub-grid with `randint(0, len(grid))`, then sample
      each of its dimensions. Returns the point and the next stream position. */
  function SamplePoint(g: seq<seq<Distribution>>, s: Stream, pos: nat): (r: Result<(Draw, nat)>)
    requires |g| > 0 && GridWellFormed(g)
    ensures r.Ok? <==> AllSamplingDefined(g[ScaledIndex(s(pos), |g|)])
    ensures r.Err? ==> r.error == DomainError
    ensures r.Ok? ==> r.value.0.subGrid == ScaledIndex(s(pos), |g|)
    ensures r.Ok? ==> r.value.0.subGrid < |g| && Fits(g[r.value.0.subGrid], r.value.0.params)
    ensures r.Ok? ==> r.value.1 == pos + 1 + |g[r.value.0.subGrid]|
    ensures r.Ok? ==> forall j :: 0 <= j < |g[r.value.0.subGrid]| ==>
              Sample(g[r.value.0.subGrid][j], s(pos + 1 + j)) == Ok(r.value.0.params[j])
  {
    var k := ScaledIndex(s(pos), |g|);
    if AllSamplingDefined(g[k]) then Ok((Draw(k, SampleDims(g[k], s, pos + 1)), pos + 1 + |g[k]|))
    else Err(DomainError)
  }

  /** One sampling step: read the stream from a position, return a point
      and the position after it. */
  type Step = nat -> Result<(Draw, nat)>

  /** n steps, each starting where the previous one left the stream: the
      shape of the source's generator loop. */
  function Run(step: Step, n: nat, pos: nat): (r: Result<(seq<Draw>, nat)>)
    ensures r.Ok? ==> |r.value.0| == n
    decreases n
  {
    if n == 0 then Ok(([], pos))
    else
      var first :- step(pos);
      var rest :- Run(step, n - 1, first.1);
      Ok(([first.0] + rest.0, rest.1))
  }

  /** What every step promises, every point of a run keeps: a property of
      the points, that the stream only moves forward, and the error kind. */
  lemma {:induction false} RunKeeps(step: Step, fits: Draw -> bool, n: nat, pos: nat)
    requires forall p: nat :: step(p).Ok? ==> fits(step(p).value.0) && p <= step(p).value.1
    requires forall p: nat :: step(p).Err? ==> step(p).error == DomainError
    ensures Run(step, n, pos).Ok? ==> pos <= Run(step, n, pos).value.1
    ensures Run(step, n, pos).Ok? ==> forall i :: 0 <= i < n ==> fits(Run(step, n, pos).value.0[i])
    ensures Run(step, n, pos).Err? ==> Run(step, n, pos).error == DomainError
    decreases n
  {
    if n > 0 && step(pos).Ok? {
      var first := step(pos).value;
      RunKeeps(step, fits, n - 1, first.1);
      if Run(step, n, pos).Ok? {
        var rest := Run(step, n - 1, first.1).value.0;
        assert Run(step, n, pos).value.0 == [first.0] + rest;
        assert forall i :: 0 < i < n ==> Run(step, n, pos).value.0[i] == rest[i - 1];
      }
    }
  }

  /** Point i of a run is the step taken where the run of i points ended,
      and the run of i + 1 points ends where that step left the stream. */
  lemma {:induction false} RunAt(step: Step, n: nat, pos: nat, i: nat)
    requires Run(step, n, pos).Ok? && i < n
    ensures Run(step, i, pos).Ok? && Run(step, i + 1, pos).Ok?
    ensures step(Run(step, i, pos).value.1) == Ok((Run(step, n, pos).value.0[i], Run(step, i + 1, pos).value.1))
    decreases n
  {
    var first := step(pos).value;
    var rest := Run(step, n - 1, first.1).value;
    assert Run(step, n, pos).value.0 == [first.0] + rest.0;
    if i == 0 {
      assert Run(step, 0, first.1) == Ok(([], first.1));
    } else {
      RunAt(step, n - 1, first.1, i - 1);
      assert Run(step, n, pos).value.0[i] == rest.0[i - 1];
    }
  }

  /** A run of n points is a prefix of the run of n + 1 points. */
  lemma {:induction false} RunPrefix(step: Step, n: nat, pos: nat)
    requires Run(step, n + 1, pos).Ok?
    ensures Run(step, n, pos).Ok?
    ensures Run(step, n, pos).value.0 == Run(step, n + 1, pos).value.0[..n]
    decreases n
  {
    if n > 0 {
      var first := step(pos).value;
      RunPrefix(step, n - 1, first.1);
      var shorter := Run(step, n - 1, first.1).value.0;
      var longer := Run(step, n, first.1).value.0;
      assert Run(step, n, pos).value.0 == [first.0] + shorter;
      assert Run(step, n + 1, pos).value.0 == [first.0] + longer;
      assert ([first.0] + longer)[..n] == [first.0] + longer[..n - 1];
    }
  }

  /** The sampling step of `sample_points` on a normalized grid. */
  function PointStep(g: seq<seq<Distribution>>, s: Stream): Step
    requires |g| > 0 && GridWellFormed(g)
  {
    p => SamplePoint(g, s, p)
  }

  /** n points drawn one after another from the same stream. */
  function Points(g: seq<seq<Distribution>>, n: nat, s: Stream, pos: nat): (r: Result<(seq<Draw>, nat)>)
    requires |g| > 0 && GridWellFormed(g)
    ensures r.Ok? ==> |r.value.0| == n && pos <= r.value.1
    ensures r.Ok? ==> forall i :: 0 <= i < n ==>
              r.value.0[i].subGrid < |g| && Fits(g[r.value.0[i].subGrid], r.value.0[i].params)
    ensures r.Err? ==> r.error == DomainError
  {
    var fits := (d: Draw) => d.subGrid < |g| && Fits(g[d.subGrid], d.params);
    assert forall p: nat :: PointStep(g, s)(p) == SamplePoint(g, s, p);
    RunKeeps(PointStep(g, s), fits, n, pos);
    Run(PointStep(g, s), n, pos)
  }

  /** Point i is the point sampled where the first i points left the
      stream, and the first i + 1 points end where it leaves the stream.
      With Points(g, 0, s, pos) ending at pos, the points start at pos and
      each starts where the one before it ended. */
  lemma PointAt(g: seq<seq<Distribution>>, n: nat, s: Stream, pos: nat, i: nat)
    requires |g| > 0 && GridWellFormed(g)
    requires Points(g, n, s, pos).Ok? && i < n
    ensures Points(g, i, s, pos).Ok? && Points(g, i + 1, s, pos).Ok?
    ensures SamplePoint(g, s, Points(g, i, s, pos).value.1) ==
            Ok((Points(g, n, s, pos).value.0[i], Points(g, i + 1, s, pos).value.1))
  {
    RunAt(PointStep(g, s), n, pos, i);
  }

  function ParamsOf(draws: seq<Draw>): (tuples: seq<seq<Value>>)
    ensures |tuples| == |draws|
    ensures forall i :: 0 <= i < |draws| ==> tuples[i] == draws[i].params
  {
    seq(|draws|, i requires 0 <= i < |draws| => draws[i].params)
  }

  /** `sample_points(grid, n_points, random_state)`: normalize the grid,
      then yield exactly n_points tuples, each a sample of one sub-grid. */
  function SamplePoints(grid: seq<Entry>, nPoints: nat, s: Stream): (r: Result<seq<seq<Value>>>)
    requires InputWellFormed(grid)
    ensures CheckGrid(grid).Err? ==> r == Err(CheckGrid(grid).error)
    ensures r.Ok? ==> CheckGrid(grid).Ok? && |r.value| == nPoints
    ensures CheckGrid(grid).Ok? ==>
              (r.Ok? <==> Points(CheckGrid(grid).value, nPoints, s, 0).Ok?) &&
              (r.Err? ==> r.error == DomainError)
    ensures r.Ok? ==> r.value == ParamsOf(Points(CheckGrid(grid).value, nPoints, s, 0).value.0)
  {
    var g :- CheckGrid(grid);
    var drawn :- Points(g, nPoints, s, 0);
    var tuples := ParamsOf(drawn.0);
    assert forall i :: 0 <= i < nPoints ==> Fits(g[drawn.0[i].subGrid], tuples[i]);
    Ok(tuples)
  }

  /** A sub-grid's tuple depends only on the draws at the positions it reads. */
  lemma SampleDimsAgree(sub: seq<Distribution>, s1: Stream, s2: Stream, pos: nat)
    requires forall j :: 0 <= j < |sub| ==> WellFormed(sub[j])
    requires AllSamplingDefined(sub)
    requires forall i :: pos <= i < pos + |sub| ==> s1(i) == s2(i)
    ensures SampleDims(sub, s1, pos) == SampleDims(sub, s2, pos)
  {
    var p1 := SampleDims(sub, s1, pos);
    var p2 := SampleDims(sub, s2, pos);
    forall j | 0 <= j < |sub|
      ensures p1[j] == p2[j]
    {
      assert s1(pos + j) == s2(pos + j);
    }
  }

  /** One point depends only on the draws it reads. */
  lemma SamplePointAgree(g: seq<seq<Distribution>>, s1: Stream, s2: Stream, pos: nat)
    requires |g| > 0 && GridWellFormed(g)
    requires SamplePoint(g, s1, pos).Ok?
    requires forall i :: pos <= i < SamplePoint(g, s1, pos).value.1 ==> s1(i) == s2(i)
    ensures SamplePoint(g, s2, pos) == SamplePoint(g, s1, pos)
  {
    assert s1(pos) == s2(pos);
    var k := ScaledIndex(s1(pos), |g|);
    SampleDimsAgree(g[k], s1, s2, pos + 1);
  }

  /** Reproducibility: the points are a function of exactly the draws they
      consume, so two streams that agree on those draws give the same points
      and leave the stream at the same position. */
  lemma {:induction false} PointsReproducible(g: seq<seq<Distribution>>, n: nat, s1: Stream, s2: Stream, pos: nat)
    requires |g| > 0 && GridWellFormed(g)
    requires Points(g, n, s1, pos).Ok?
    requires forall i :: pos <= i < Points(g, n, s1, pos).value.1 ==> s1(i) == s2(i)
    ensures Points(g, n, s2, pos) == Points(g, n, s1, pos)
    decreases n
  {
    if n > 0 {
      var first := SamplePoint(g, s1, pos).value;
      var rest := Points(g, n - 1, s1, first.1).value;
      assert Points(g, n, s1, pos).value.1 == rest.1;
      SamplePointAgree(g, s1, s2, pos);
      PointsReproducible(g, n - 1, s1, s2, first.1);
    }
  }

  /** Asking for fewer points yields a prefix of the longer run: the
      sequence behaves like the source's generator read part-way. */
  lemma FewerPointsArePrefix(g: seq<seq<Distribution>>, n: nat, s: Stream, pos: nat)
    requires |g| > 0 && GridWellFormed(g)
    requires Points(g, n + 1, s, pos).Ok?
    ensures Points(g, n, s, pos).Ok?
    ensures Points(g, n, s, pos).value.0 == Points(g, n + 1, s, pos).value.0[..n]
  {
    RunPrefix(PointStep(g, s), n, pos);
  }

  /** The public sampler inherits the prefix property. */
  lemma SamplePointsPrefix(grid: seq<Entry>, n: nat, s: Stream)
    requires InputWellFormed(grid)
    requires SamplePoints(grid, n + 1, s).Ok?
    ensures SamplePoints(grid, n, s) == Ok(SamplePoints(grid, n + 1, s).value[..n])
  {
    var g := CheckGrid(grid).value;
    FewerPointsArePrefix(g, n, s, 0);
    var longer := Points(g, n + 1, s, 0).value.0;
    assert ParamsOf(longer)[..n] == ParamsOf(longer[..n]);
  }
}

=== FILE: transformers.dfy ===
/** Transformers between a dimension's original space and the warped space
    handed to the optimizer: Identity, Log, Log10, CategoricalEncoder (one-hot)
    and sklearn's LabelEncoder (integer codes). */
module Transformers {
  import opened Results
  import opened Values

  /** No label occurs twice. */
  predicate Distinct(s: seq<Value>) {
    forall i, j :: 0 <= i < j < |s| ==> s[i] != s[j]
  }

  /** The labels an encoder learned during fit, each once. */
  type Classes = s: seq<Value> | Distinct(s) witness []

  /** A fitted label encoder. Only `Fit` produces one from data, so an
      encoder cannot be used before it is fitted. */
  datatype Encoder = Encoder(classes: Classes)

  /** The distinct labels of `values`, in order of first occurrence. */
  function Dedup(values: seq<Value>): (r: Classes)
    ensures forall v :: v in r <==> v in values
    ensures |r| <= |values|
  {
    if |values| == 0 then []
    else
      var rest := Dedup(values[..|values| - 1]);
      var last := values[|values| - 1];
      assert values == values[..|values| - 1] + [last];
      if last in rest then rest else rest + [last]
  }

  /** `fit`: learn the labels present in `values`. */
  function Fit(values: seq<Value>): (e: Encoder)
    ensures forall v :: v in e.classes <==> v in values
  {
    Encoder(Dedup(values))
  }

  /** The column a learned label occupies. */
  function IndexOf(classes: seq<Value>, v: Value): (k: nat)
    requires v in classes
    ensures k < |classes| && classes[k] == v
  {
    if classes[0] == v then 0 else 1 + IndexOf(classes[1..], v)
  }

  /** In a sequence without repeats, a label sits at exactly one index. */
  lemma IndexOfUnique(classes: Classes, k: nat)
    requires k < |classes|
    ensures IndexOf(classes, classes[k]) == k
  {
  }

  /** The one-hot row of a learned label. */
  function OneHotRow(e: Encoder, v: Value): (row: seq<int>)
    requires v in e.classes
    ensures |row| == |e.classes|
    ensures forall j :: 0 <= j < |row| ==> row[j] == (if e.classes[j] == v then 1 else 0)
  {
    var k := IndexOf(e.classes, v);
    seq(|e.classes|, j => if j == k then 1 else 0)
  }

  /** CategoricalEncoder.transform: one row per input value, one column per
      learned label, a single 1 in the label's column. A label not learned
      during fit makes the whole call fail. */
  function EncodeOneHot(e: Encoder, values: seq<Value>): (r: Result<seq<seq<int>>>)
    ensures r.Ok? <==> forall i :: 0 <= i < |values| ==> values[i] in e.classes
    ensures r.Err? ==> r.error == UnseenLabel
    ensures r.Ok? ==> |r.value| == |values|
    ensures r.Ok? ==> forall i :: 0 <= i < |values| ==> |r.value[i]| == |e.classes|
    ensures r.Ok? ==> forall i, j :: 0 <= i < |values| && 0 <= j < |e.classes| ==>
                        r.value[i][j] == (if e.classes[j] == values[i] then 1 else 0)
  {
    if forall i :: 0 <= i < |values| ==> values[i] in e.classes then
      Ok(seq(|values|, i requires 0 <= i < |values| => OneHotRow(e, values[i])))
    else
      Err(UnseenLabel)
  }

  /** Each one-hot row holds exactly one 1, and it sits in the column of
      the encoded label. */
  lemma OneHotRowHasSingleOne(e: Encoder, values: seq<Value>, i: nat)
    requires EncodeOneHot(e, values).Ok? && i < |values|
    ensures IndexOf(e.classes, values[i]) < |e.classes|
    ensures EncodeOneHot(e, values).value[i][IndexOf(e.classes, values[i])] == 1
    ensures forall j :: 0 <= j < |e.classes| && EncodeOneHot(e, values).value[i][j] == 1 ==>
              j == IndexOf(e.classes, values[i])
  {
    var k := IndexOf(e.classes, values[i]);
    forall j | 0 <= j < |e.classes| && EncodeOneHot(e, values).value[i][j] == 1
      ensures j == k
    {
      assert e.classes[j] == values[i] == e.classes[k];
    }
  }

  /** The one-hot encoding loses nothing: equal rows come from equal labels. */
  lemma OneHotIsInjective(e: Encoder, values: seq<Value>, i: nat, i': nat)
    requires EncodeOneHot(e, values).Ok? && i < |values| && i' < |values|
    requires EncodeOneHot(e, values).value[i] == EncodeOneHot(e, values).value[i']
    ensures values[i] == values[i']
  {
    var rows := EncodeOneHot(e, values).value;
    var k := IndexOf(e.classes, values[i]);
    assert rows[i][k] == 1;
    assert rows[i'][k] == 1;
  }

  /** LabelEncoder.transform: each label becomes the index of its class. */
  function EncodeLabels(e: Encoder, values: seq<Value>): (r: Result<seq<Value>>)
    ensures r.Ok? <==> forall i :: 0 <= i < |values| ==> values[i] in e.classes
    ensures r.Err? ==> r.error == UnseenLabel
    ensures r.Ok? ==> |r.value| == |values|
    ensures r.Ok? ==> forall i :: 0 <= i < |values| ==>
                        r.value[i].IntV? && 0 <= r.value[i].i < |e.classes| && e.classes[r.value[i].i] == values[i]
  {
    if forall i :: 0 <= i < |values| ==> values[i] in e.classes then
      Ok(seq(|values|, i requires 0 <= i < |values| => IntV(IndexOf(e.classes, values[i]))))
    else
      Err(UnseenLabel)
  }

  /** A code names a learned class. */
  predicate IsCode(e: Encoder, c: Value) {
    c.IntV? && 0 <= c.i < |e.classes|
  }

  /** LabelEncoder.inverse_transform: each code becomes its class label. */
  function DecodeLabels(e: Encoder, codes: seq<Value>): (r: Result<seq<Value>>)
    ensures r.Ok? <==> forall i :: 0 <= i < |codes| ==> IsCode(e, codes[i])
    ensures r.Err? ==> r.error == UnseenLabel
    ensures r.Ok? ==> |r.value| == |codes|
    ensures r.Ok? ==> forall i :: 0 <= i < |codes| ==> r.value[i] == e.classes[codes[i].i]
  {
    if forall i :: 0 <= i < |codes| ==> IsCode(e, codes[i]) then
      Ok(seq(|codes|, i requires 0 <= i < |codes| && IsCode(e, codes[i]) => e.classes[codes[i].i]))
    else
      Err(UnseenLabel)
  }

  /** Decoding the codes of learned labels gives the labels back. */
  lemma LabelsRoundTrip(e: Encoder, values: seq<Value>)
    requires EncodeLabels(e, values).Ok?
    ensures DecodeLabels(e, EncodeLabels(e, values).value) == Ok(values)
  {
    var codes := EncodeLabels(e, values).value;
    assert DecodeLabels(e, codes).value == values;
  }

  /** Encoding decoded labels gives the codes back. */
  lemma CodesRoundTrip(e: Encoder, codes: seq<Value>)
    requires DecodeLabels(e, codes).Ok?
    ensures EncodeLabels(e, DecodeLabels(e, codes).value) == Ok(codes)
  {
    var labels := DecodeLabels(e, codes).value;
    var back := EncodeLabels(e, labels).value;
    forall i | 0 <= i < |codes|
      ensures back[i] == codes[i]
    {
      IndexOfUnique(e.classes, codes[i].i);
    }
    assert back == codes;
  }

  /** A dimension's transformer. Log and Log10 are kept as tags: their
      floating-point arithmetic is not part of this model. A user-supplied
      TransformerMixin object is an opaque, named foreign transformer. */
  datatype Transformer =
    | Identity
    | Log
    | Log10
    | OneHot(encoder: Encoder)
    | Labels(encoder: Encoder)
    | UserDefined(name: string)

  /** Values in warped space. `Unmodelled` records values handed to a
      transformer whose arithmetic the model does not carry out. */
  datatype Warped =
    | Column(values: seq<Value>)
    | Indicators(rows: seq<seq<int>>)
    | Unmodelled(via: Transformer, inverse: bool, values: seq<Value>)

  /** Transformers whose `fit` learns nothing. */
  predicate Stateless(t: Transformer) {
    t.Identity? || t.Log? || t.Log10?
  }

  /** `fit` returns the transformer itself for the stateless variants; the
      label encoders learn the labels of `values`. */
  function FitTransformer(t: Transformer, values: seq<Value>): (r: Transformer)
    ensures Stateless(t) ==> r == t
    ensures t.OneHot? ==> r.OneHot? && forall v :: v in r.encoder.classes <==> v in values
    ensures t.Labels? ==> r.Labels? && forall v :: v in r.encoder.classes <==> v in values
    ensures t.UserDefined? ==> r == t
  {
    match t
    case OneHot(_) => OneHot(Fit(values))
    case Labels(_) => Labels(Fit(values))
    case _ => t
  }

  /** `transform`: from original into warped space. */
  function Transform(t: Transformer, values: seq<Value>): (r: Result<Warped>)
    ensures t.Identity? ==> r == Ok(Column(values))
    ensures t.OneHot? ==> (r.Ok? <==> forall i :: 0 <= i < |values| ==> values[i] in t.encoder.classes)
    ensures t.OneHot? && r.Ok? ==> r.value == Indicators(EncodeOneHot(t.encoder, values).value)
    ensures t.Labels? ==> (r.Ok? <==> forall i :: 0 <= i < |values| ==> values[i] in t.encoder.classes)
    ensures t.Labels? && r.Ok? ==> r.value == Column(EncodeLabels(t.encoder, values).value)
    ensures r.Err? ==> r.error == UnseenLabel
  {
    match t
    case Identity => Ok(Column(values))
    case OneHot(e) =>
      var rows :- EncodeOneHot(e, values);
      Ok(Indicators(rows))
    case Labels(e) =>
      var codes :- EncodeLabels(e, values);
      Ok(Column(codes))
    case _ => Ok(Unmodelled(t, false, values))
  }

  /** `inverse_transform`: from warped back into original space. The one-hot
      encoder defines none, so asking it for one fails. */
  function InverseTransform(t: Transformer, values: seq<Value>): (r: Result<Warped>)
    ensures t.Identity? ==> r == Ok(Column(values))
    ensures t.OneHot? ==> r == Err(NoInverse)
    ensures t.Labels? ==> (r.Ok? <==> forall i :: 0 <= i < |values| ==> IsCode(t.encoder, values[i]))
    ensures t.Labels? && r.Ok? ==> r.value.Column? && |r.value.values| == |values|
  {
    match t
    case Identity => Ok(Column(values))
    case OneHot(_) => Err(NoInverse)
    case Labels(e) =>
      var labels :- DecodeLabels(e, values);
      Ok(Column(labels))
    case _ => Ok(Unmodelled(t, true, values))
  }

  /** Identity: fit returns the transformer, and transform and
      inverse_transform both hand back their input unchanged. */
  lemma IdentityIsTransparent(values: seq<Value>)
    ensures FitTransformer(Identity, values) == Identity
    ensures Transform(Identity, values) == Ok(Column(values))
    ensures InverseTransform(Identity, values) == Ok(Column(values))
  {
  }

  /** For the transformers whose warped values the model computes and that
      define an inverse, inverse_transform undoes transform. */
  lemma TransformRoundTrip(t: Transformer, values: seq<Value>)
    requires t.Identity? || t.Labels?
    requires Transform(t, values).Ok?
    ensures Transform(t, values).value.Column?
    ensures InverseTransform(t, Transform(t, values).value.values) == Ok(Column(values))
  {
    if t.Labels? {
      LabelsRoundTrip(t.encoder, values);
    }
  }
}

=== FILE: values.dfy ===
/** The loosely-typed scalars a user writes into a search grid. */
module Values {

  /** A Python scalar: an integral number, a float, a string, or any other
      object (None, a tuple, ...). A Python float such as 3.0 is a RealV and
      is not integral, as `isinstance(3.0, numbers.Integral)` is false. */
  datatype Value = IntV(i: int) | RealV(r: real) | StrV(s: string) | OtherV

  /** `isinstance(v, numbers.Number)` */
  predicate IsNumber(v: Value) {
    v.IntV? || v.RealV?
  }

  /** `isinstance(v, (numbers.Number, str))`: the test that makes a grid look flat. */
  predicate IsScalarKey(v: Value) {
    IsNumber(v) || v.StrV?
  }

  function AsReal(v: Value): (r: real)
    requires IsNumber(v)
    ensures v.IntV? ==> r == v.i as real
    ensures v.RealV? ==> r == v.r
  {
    if v.IntV? then v.i as real else v.r
  }
}

=== FILE: weights.dfy ===
/** Discrete priors over category indices: the probability vector a
    Categorical carries and the inverse-CDF draw `rv_discrete` performs. */
module Weights {
  import opened Randomness

  /** Total weight of the first k entries. */
  function PrefixSum(w: seq<real>, k: nat): real
    requires k <= |w|
  {
    if k == 0 then 0.0 else PrefixSum(w, k - 1) + w[k - 1]
  }

  function Sum(w: seq<real>): real {
    PrefixSum(w, |w|)
  }

  /** A probability vector over n outcomes. */
  predicate ValidWeights(w: seq<real>, n: nat) {
    && |w| == n
    && (forall i :: 0 <= i < |w| ==> w[i] >= 0.0)
    && Sum(w) == 1.0
  }

  /** The weights of `n` copies of `c` add up to `n * c`. */
  lemma {:induction false} PrefixSumOfCopies(w: seq<real>, c: real, k: nat)
    requires k <= |w|
    requires forall i :: 0 <= i < |w| ==> w[i] == c
    ensures PrefixSum(w, k) == k as real * c
  {
    if k > 0 {
      PrefixSumOfCopies(w, c, k - 1);
    }
  }

  /** Default prior of a Categorical: weight 1/n for each of n categories. */
  function UniformWeights(n: nat): (w: seq<real>)
    requires n > 0
    ensures |w| == n
    ensures forall i :: 0 <= i < n ==> w[i] == 1.0 / n as real
    ensures ValidWeights(w, n)
  {
    var w := seq(n, _ => 1.0 / n as real);
    PrefixSumOfCopies(w, 1.0 / n as real, n);
    w
  }

  /** Prefix sums of non-negative weights never decrease. */
  lemma {:induction false} PrefixSumMonotone(w: seq<real>, j: nat, k: nat)
    requires j <= k <= |w|
    requires forall i :: 0 <= i < |w| ==> w[i] >= 0.0
    ensures PrefixSum(w, j) <= PrefixSum(w, k)
  {
    if j < k {
      PrefixSumMonotone(w, j, k - 1);
    }
  }

  /** Inverse-CDF search from index k: the first index whose cumulative
      weight reaches the draw (scipy takes the first index with cdf >= u).
      The search stops at the last index, whose cumulative weight is 1 for
      a probability vector and so always reaches the draw. */
  function PickFrom(w: seq<real>, u: real, k: nat): (i: nat)
    requires k < |w|
    ensures k <= i < |w|
    decreases |w| - k
  {
    if k == |w| - 1 || u <= PrefixSum(w, k + 1) then k else PickFrom(w, u, k + 1)
  }

  /** The index scipy's discrete variate over 0..n-1 with weights w yields for draw u. */
  function Pick(w: seq<real>, u: Unit): (i: nat)
    requires |w| > 0
    ensures i < |w|
  {
    PickFrom(w, u, 0)
  }

  lemma {:induction false} PickFromInterval(w: seq<real>, u: Unit, k: nat)
    requires ValidWeights(w, |w|)
    requires k < |w|
    requires k == 0 || PrefixSum(w, k) < u
    ensures PickFrom(w, u, k) == k || PrefixSum(w, PickFrom(w, u, k)) < u
    ensures u <= PrefixSum(w, PickFrom(w, u, k) + 1)
    decreases |w| - k
  {
    if k == |w| - 1 {
      assert PrefixSum(w, k + 1) == Sum(w) == 1.0;
    } else if !(u <= PrefixSum(w, k + 1)) {
      PickFromInterval(w, u, k + 1);
    }
  }

  /** For a probability vector, the drawn index i is the one whose slot
      (PrefixSum(i), PrefixSum(i + 1)] contains the draw, with the draw 0
      going to index 0: index i owns a slot of width w[i], and every earlier
      index's cumulative weight stays below the draw. */
  lemma PickIsInverseCdf(w: seq<real>, u: Unit)
    requires |w| > 0 && ValidWeights(w, |w|)
    ensures Pick(w, u) == 0 || PrefixSum(w, Pick(w, u)) < u
    ensures u <= PrefixSum(w, Pick(w, u) + 1)
    ensures forall j :: 0 < j <= Pick(w, u) ==> PrefixSum(w, j) < u
    ensures u == 0.0 ==> Pick(w, u) == 0
  {
    var i := Pick(w, u);
    PickFromInterval(w, u, 0);
    forall j | 0 < j <= i
      ensures PrefixSum(w, j) < u
    {
      PrefixSumMonotone(w, j, i);
    }
    if i > 0 {
      assert PrefixSum(w, 1) == w[0];
    }
  }

  /** A category of weight zero is drawn only by the draw 0, and only when
      it is the first category. */
  lemma ZeroWeightNeverPicked(w: seq<real>, u: Unit)
    requires |w| > 0 && ValidWeights(w, |w|)
    ensures u > 0.0 ==> w[Pick(w, u)] > 0.0
    ensures u == 0.0 ==> Pick(w, u) == 0
  {
    PickIsInverseCdf(w, u);
  }
}
